=== FILE: README.md ===
# Order, payment and invoice bookkeeping over a spreadsheet

This project models the four serverless handlers that keep a small shop's
books in a Google spreadsheet: order creation (`api/add-order.js`), payment
reconciliation (`api/add-payments.js`), gateway-verified payment
(`api/verifyPaystackPayment.js`) and invoice generation
(`api/generateInvoice.js`).

The spreadsheet is an abstract tabular store: a map from sheet name to a
sequence of rows, each row a sequence of cells (`Sheets.Store`). A missing
map entry is a sheet that does not exist. Each handler is a pure function

    Handle(request, store, env, [gateway reply | uuid], now) -> Outcome(reply, store', effects)

where `env` says which remote services (and the invoice's rendering) throw and what link the document store
returns, and `effects` is the ordered log of the remote calls the handler
attempted: store reads, appends and cell updates, the gateway call, the
document upload and the mail. An attempt that throws is the last entry of the
log, and the reply is then 500. "No store access" means the log is empty.
Step ordering is the order of the log.

Modules:

- `Js` (js.dfy): the JavaScript values a body or a cell can hold. It covers
  falsiness, `a || b`, `row[i]` past the end, `Number(..)` and
  `parseFloat(..)` on numbers, and the string helpers used to build ids.
- `Sheets` (sheets.dfy): the store, row append, single-cell update with
  padding, and the `findIndex` lookup on column A. It also holds the
  cross-request invariant `Evolves`: every sheet only grows at its end, and
  an order row may change only by its status cell becoming "Paid".
- `Http` (http.dfy): services, environment, effect log, replies.
- `AddOrder`, `AddPayments`, `PaystackVerify`, `Invoice`: one module per
  handler, each with its `Handle` and the lemmas about it.
- `Workflow` (workflow.dfy): runs any sequence of requests and states what
  holds across handlers.

In these places the code departs from what its comments and the overall
workflow suggest; the model follows the code:

- add-payments compares the amount with the unit price in column D, not
  with price times quantity.
- generateInvoice reads the sheet "Order logs", while the other handlers use
  "Orders".
- generateInvoice searches every row, the header included. add-payments
  skips the header row.
- The order id is supplied by the caller. No customer record is resolved or
  created.
- The gateway path never marks an order paid.

## Model

| member | source | states |
|---|---|---|
| Js.FalsyValues | api/add-order.js:20 | the values `!v` rejects are exactly undefined, null, false, 0 and "" |
| Js.ToNumber | api/generateInvoice.js:50 | `Number(v)` is the number itself for a number and 0 for every falsy value but undefined; a non-zero result implies a truthy value; non-empty text is NaN |
| Js.ParseFloat | api/add-payments.js:50-51 | `parseFloat(v)` yields a number exactly for a number, and then agrees with `Number(v)`; unlike `Number`, it gives NaN for null, false and "" |
| Js.Upper | api/add-payments.js:57 | upper-casing keeps the length, sends each lower-case ASCII letter to its capital (code point minus 32), leaves no lower-case ASCII letter, and keeps every other character |
| Js.SplitHead | api/add-payments.js:57 | `split("-")[0]` is a prefix of the input with no separator in it, and it stops at the first separator or at the end of the input |
| Js.SliceLast | api/verifyPaystackPayment.js:38 | `slice(-n)` for n > 0 is the suffix of length min(n, length) |
| Sheets.Append | api/add-order.js:52-57 | an append adds exactly one row after the existing ones, which are kept, and leaves every other sheet alone |
| Sheets.SetAt | api/add-payments.js:83-89 | a single-cell write sets the cell at that column, keeps every other cell, and pads a short row with empty cells up to the column |
| Sheets.UpdateCell | api/add-payments.js:84-89 | a single-cell update changes that one cell of that one row (a short row is padded), keeps the sheet's length, and changes nothing else |
| Sheets.FindIndex | api/add-payments.js:40 | `findIndex` on column A returns the first matching index, and None exactly when no row matches |
| Sheets.DataRows | api/add-payments.js:36-38 | `orders.slice(1)` drops the header row and moves every other row one index down |
| Sheets.FindIndexAppend | api/add-order.js:52-57 | appending a row never moves an earlier match, and the new row is found only when nothing before it matches |
| Sheets.PaidIsSticky | api/add-payments.js:81-90 | under the cross-request invariant, a status cell that reads "Paid" keeps reading "Paid" |
| Sheets.LookupStable | api/add-payments.js:36-40 | under the invariant, a truthy order id that `orders.slice(1).findIndex` finds is still found at the same data-row index later; rows never move and column A is never rewritten |
| AddOrder.Handle | api/add-order.js:3-63 | order creation answers 200, 400, 405 or 500; it can change only the Orders sheet, only on a 200, and its only possible call is the one append to Orders |
| AddOrder.NonPostRejected | api/add-order.js:4-6 | 405 exactly when the method is not POST, with no store access and no change |
| AddOrder.MissingFieldsRejected | api/add-order.js:20-22 | for a POST, 400 exactly when orderId, product, quantity, price or customerName is falsy, before any store call |
| AddOrder.ZeroQuantityRejected | api/add-order.js:20 | a quantity of 0 counts as missing |
| AddOrder.RowLayout | api/add-order.js:39-50 | the one appended row has 10 columns: id, product, quantity, price, status or "Pending" in column E, customer name, email/phone/address or "", timestamp |
| AddOrder.AppendsOnce | api/add-order.js:52-63 | a valid request succeeds exactly when the append succeeds; Orders then grows by exactly that row with no duplicate check, and a failure leaves the store unchanged |
| AddOrder.PreservesHistory | api/add-order.js:39-57 | order creation keeps the cross-request invariant |
| AddPayments.Handle | api/add-payments.js:4-105 | payment reconciliation answers 200, 400, 404, 405 or 500; on every path only Orders and Payments can change, a 400, 404 or 405 changes nothing, and the calls, when made, are in this order: the Orders read, then a Payments append, then an Orders status write |
| AddPayments.NonPostRejected | api/add-payments.js:5-7 | 405 exactly when the method is not POST, with no store access and no change |
| AddPayments.MissingFieldsRejected | api/add-payments.js:13-18 | for a POST, 400 exactly when orderId, amountPaid, paymentMethod or payerName is falsy, an amount of 0 included; no sheet is read or written |
| AddPayments.LookupSkipsHeader | api/add-payments.js:36-47 | after the read, 404 exactly when no row after the header has the order id in column A; the only call is the read and nothing changes |
| AddPayments.VerifiedIff | api/add-payments.js:49-54 | the verdict is "TRUE" exactly when the parsed amount is at least the matched row's parsed column-D value, "FALSE" otherwise, and the reply carries it with the payment id |
| AddPayments.PaymentRowLayout | api/add-payments.js:56-79 | past the lookup, the first two calls are the Orders read and the append of the payment row built from the request, the new id and the verdict against the matched order, verified or not; on a 200 the Payments sheet has gained exactly that row at its end |
| AddPayments.PaymentColumns | api/add-payments.js:60-71 | the payment row has 10 columns [id, orderId, amount, method, reference or "-", payer, date, verdict, notes or "", "System"], with the reference and notes replaced exactly when falsy |
| AddPayments.StatusUpdate | api/add-payments.js:81-90 | when verified, the third call and the only Orders change is column E of sheet row index+2, the matched row, set to "Paid"; when not verified, Orders is unchanged and nothing follows the append |
| AddPayments.FailedUpdateKeepsPayment | api/add-payments.js:74-105 | when the status write throws, the reply is 500 but the payment row has already been appended and Orders is unchanged |
| AddPayments.PaymentIdShape | api/add-payments.js:57 | the payment id starts with "PAY-", followed by upper-case text with no "-" |
| AddPayments.IgnoresQuantity | api/add-payments.js:49-54 | the verdict does not depend on the quantity column, so paying one unit price of a three-unit order is "TRUE" |
| AddPayments.PreservesHistory | api/add-payments.js:60-90 | payment reconciliation keeps the cross-request invariant |
| PaystackVerify.Handle | api/verifyPaystackPayment.js:4-81 | gateway payment answers 200, 400, 405 or 500; it can change only the Payments sheet, only on a 200, and the calls, when made, are the gateway call and then one Payments append |
| PaystackVerify.NonPostRejected | api/verifyPaystackPayment.js:5-7 | 405 exactly when the method is not POST, with no call and no change |
| PaystackVerify.MissingReferenceRejected | api/verifyPaystackPayment.js:11-13 | a falsy reference is 400 with no gateway call and no append |
| PaystackVerify.GatewayGate | api/verifyPaystackPayment.js:23-29 | a falsy top-level status or a transaction status other than "success" is 400 after the single gateway call, with no change; success implies both held |
| PaystackVerify.AmountInNaira | api/verifyPaystackPayment.js:33 | the recorded amount times 100 is the gateway's kobo amount |
| PaystackVerify.PaymentIdFromReference | api/verifyPaystackPayment.js:38 | the id is "PAY-" followed by at most six characters, exactly six for references of six or more; references whose last six characters upper-case alike get the same id |
| PaystackVerify.NonStringReferenceFails | api/verifyPaystackPayment.js:38 | a truthy reference that is not text (a number or `true`) passes the presence check and the gateway call, then `slice` throws: 500 after only the gateway call, with no append |
| PaystackVerify.PaymentIdCollides | api/verifyPaystackPayment.js:38 | two different references can yield the same payment id |
| PaystackVerify.RowLayout | api/verifyPaystackPayment.js:34-57 | the 8-column row: id, orderId or "N/A", naira amount, channel, "success", customer name or "N/A", email, date |
| PaystackVerify.AppendsOnce | api/verifyPaystackPayment.js:59-72 | after a successful verification, the calls are the gateway call then one Payments append of that row, the reply carries id and row, and no other sheet changes |
| PaystackVerify.NeverTouchesOrders | api/verifyPaystackPayment.js:48-64 | on every path the Orders sheet is unchanged and every append goes to Payments |
| PaystackVerify.PreservesHistory | api/verifyPaystackPayment.js:59-64 | gateway payment keeps the cross-request invariant |
| Invoice.Handle | api/generateInvoice.js:7-156 | invoice generation answers 200, 400, 404, 405 or 500; it can change only InvoiceLogs; a 400, 404 or 405 changes nothing and makes no call other than the "Order logs" read |
| Invoice.NonPostRejected | api/generateInvoice.js:8-10 | 405 exactly when the method is not POST, with no call and no change |
| Invoice.MissingOrderIdRejected | api/generateInvoice.js:17-22 | for a POST, 400 exactly when orderId is falsy, before any call |
| Invoice.LookupIncludesHeader | api/generateInvoice.js:38-46 | 404 exactly when no row of "Order logs", the header included, has the id; there is no upload, no log append and no mail |
| Invoice.EmptySheetFails | api/generateInvoice.js:38-39 | an "Order logs" sheet with no rows gives 500 rather than 404, because `rows` is undefined |
| Invoice.RenderedContent | api/generateInvoice.js:49-73 | an "Order logs" row laid out as add-order writes an order (add-order.js:39-50) renders as that order: its id, customer, email or "", phone, address, product, quantity and price; total Number(price) × Number(quantity), so 3 units at 1000 total 3000; status the order's own or "Pending" |
| Invoice.RenderedStatus | api/generateInvoice.js:73 | for any matched "Order logs" row that renders, the uploaded invoice shows the row's status cell, or "Pending" when that cell is falsy or missing |
| Invoice.InvoiceIdShape | api/generateInvoice.js:53 | the invoice id starts with "INV-", followed by upper-case text with no "-" |
| Invoice.StepOrder | api/generateInvoice.js:80-148 | on success the calls are read, upload of `<id>.pdf`, one InvoiceLogs append, then mail of the same document under the same file name to the row's stored email; the reply carries the id and the upload's link |
| Invoice.LogRowLayout | api/generateInvoice.js:101-119 | once the upload succeeds, the third call appends to InvoiceLogs [invoiceId, the matched order id, columns F and G of the first match, "₦" + its price × quantity, "Generated", date, upload link]; for a row add-order wrote these are the customer name, email or "" and price × quantity |
| Invoice.LateFailures | api/generateInvoice.js:54-155 | the first failing step ends the chain with 500: a rendering failure leaves only the read, an upload failure adds only the upload attempt, a mail failure still leaves the upload done and the log row appended; success exactly when rendering and all three calls succeed |
| Invoice.ReadsOnlyOrderLogs | api/generateInvoice.js:33-36 | the reply and the calls depend on no sheet other than "Order logs" and on whether InvoiceLogs exists |
| Invoice.PreservesHistory | api/generateInvoice.js:101-119 | invoice generation keeps the cross-request invariant |
| Workflow.RunEvolves | api/add-payments.js:74-90 | over any sequence of requests to the four handlers, sheets only grow at their end and order rows change only by their status becoming "Paid" |
| Workflow.PaidStaysPaid | api/add-payments.js:81-90 | after any sequence of requests, an order whose status reads "Paid" still reads "Paid", whatever the other sheets hold |
| Workflow.LoggedRowsKept | api/add-payments.js:73-79 | after any sequence of requests, every row of every sheet other than Orders (payments, invoice logs, order logs) is still there, unchanged, at the same index |
| Workflow.OrderThenPayment | api/add-payments.js:83-89 | an order placed under a fresh id and then paid at its unit price gets "Paid" in the column-E cell add-order filled, at sheet row n+1; all other cells and earlier rows are kept |
| Workflow.FirstOrderTakesHeaderRow | api/add-payments.js:36-40 | the first order appended to an empty Orders sheet sits in the header row, so add-payments answers 404 for it |
| Workflow.LookupsAgreeBelowHeader | api/generateInvoice.js:38-39 | the invoice lookup and the payment lookup agree one row apart, except when the header's column A equals the id, which only the invoice lookup matches |
| Workflow.InvoiceIgnoresPlacedOrders | api/generateInvoice.js:33-36 | placing an order changes nothing that invoice generation sees, because it reads "Order logs" and not "Orders" |
| Workflow.WidgetScenario | api/add-payments.js:49-90 | three units at 1000, paid 1000: the payment is "TRUE" and the order becomes "Paid" |

## Left out

- Google authentication, credential parsing, environment variables and client construction. They are configuration. A failure there would be a 500 like any failed call.
- Each remote call is abstracted to success or a throw chosen by `Env.down`, or to the sheet not existing. This covers the Sheets, Drive, mail and gateway calls. The Drive link is an input.
- PDF rendering (pdfkit and stream buffers, generateInvoice.js:54-89): the document is modelled by its content (`Http.Document`), not its bytes. Whether rendering and `Buffer.from` succeed is chosen by `Env.down` (the `PdfRender` service), and a failure is a 500 after only the read. The model does not decide which outcome the code actually produces: `stream.getContents()` is read right after `doc.end()`, before pdfkit has necessarily flushed, and for an empty buffer it returns `false`, which makes `Buffer.from` throw. The mail's sender, body text and the service's delivery are left out. So is the service's handling of an empty recipient.
- uuid randomness and date formatting: the uuid and the formatted date are parameters. The two separate `new Date()` calls in invoice generation share one `now`.
- Number parsing: `Js.ToNumber` and `Js.ParseFloat` read numeric cells as numbers. Text that spells a number (for example "1000") is treated as NaN, and floating-point rounding is not modelled. `Number(null)`, `Number(true)` and `Number("")` follow JavaScript.
- Js.ToNumber: non-empty text is NaN even when it spells a number or is only whitespace, where `Number("1000")` is 1000 and `Number(" ")` is 0. This follows from the number parsing above.
- Js.ParseFloat: text is NaN even when it starts with a number, where `parseFloat("1000")` is 1000. This follows from the number parsing above.
- AddPayments.VerifiedIff: a price or amount held as numeric text gives "FALSE" in the model, whereas JavaScript would parse it. This follows from the number parsing above.
- Invoice.RenderedContent: the same applies to a total over numeric text, which is NaN in the model.
- The store's own conversions: USER_ENTERED parsing, formatted values on read, undefined cells turning into empty cells, and range-width checks on append are not modelled. A read returns exactly what was written. In particular, verifyPaystackPayment.js:59-64 appends an 8-cell row into the 7-column range "Payments!A:G", which the store might reject; the model appends the whole row.
- The two handlers that write Payments give its columns different meanings: column E is the reference or "-" in add-payments and the literal "success" in verifyPaystackPayment, and column H is the verdict in one and the date in the other. The model stores both layouts as written and states nothing about reading Payments back.
- The text of `"₦" + total` is kept symbolic as `Js.Value.Naira`. It is never compared or parsed.
- Js.Upper: upper-cases ASCII letters only, while `toUpperCase` also maps other Unicode letters. For the uuid-based ids the two agree, since a v4 uuid holds only hex digits and "-". A gateway reference ending in a non-ASCII letter would upper-case differently.
- Body fields that hold JSON objects or arrays are not representable in `Js.Value`. In JavaScript they are truthy, so they pass the presence checks. They are never `===` to a cell, so an order id sent as an object is never found by either lookup.
- The `console.log` and `console.error` calls (add-order.js:61, add-payments.js:100, verifyPaystackPayment.js:75, generateInvoice.js:15 and 150) are diagnostics with no effect on replies or the store, and are not modelled.
- Request bodies are always objects. A missing body, a gateway reply with a truthy `status` but no `data` object (which throws at verifyPaystackPayment.js:23 and gives 500), a missing `customer` object in the gateway reply, and reply messages and error texts are left out. Replies carry the status and the fields a caller acts on.
- Races between the read and the row-number update, and concurrent duplicate submissions, are left out. The model is sequential.
- api/log-to-sheets.js, api/log-to-google.js, api/log-to-notion.js, api/ai.js and api/send-email.js are not part of this model. Each is a fixed-row append, a passthrough or a presence check, with no data flow into these handlers.

=== FILE: add_order.dfy ===
/** Order creation: validate the request, build a ten-column order row with
    defaults, and append it to the Orders sheet. The order id comes from the
    caller; nothing checks it for duplicates. */
module AddOrder {
  import opened Js
  import opened Sheets
  import opened Http

  datatype Request = Request(
    verb: string,
    orderId: Value,
    product: Value,
    quantity: Value,
    price: Value,
    status: Value,
    customerName: Value,
    email: Value,
    phone: Value,
    address: Value)

  predicate HasRequired(req: Request) {
    && Truthy(req.orderId)
    && Truthy(req.product)
    && Truthy(req.quantity)
    && Truthy(req.price)
    && Truthy(req.customerName)
  }

  /** Columns A..J of an order; `now` is the ISO timestamp. */
  function OrderRow(req: Request, now: string): Row {
    [ req.orderId,
      req.product,
      req.quantity,
      req.price,
      Or(req.status, Str("Pending")),
      req.customerName,
      Or(req.email, Str("")),
      Or(req.phone, Str("")),
      Or(req.address, Str("")),
      Str(now) ]
  }

  /** Only the Orders sheet can change, and only on a 200; every other
      outcome leaves the store exactly as it was. */
  function Handle(req: Request, st: Store, env: Env, now: string): (o: Outcome)
    ensures o.reply.status in {200, 400, 405, 500}
    ensures o.store.Keys == st.Keys
    ensures forall s :: s in st && s != OrdersSheet ==> o.store[s] == st[s]
    ensures o.reply.status != 200 ==> o.store == st
    ensures |o.effects| <= 1
    ensures forall i :: 0 <= i < |o.effects| ==> o.effects[i].SheetAppend? && o.effects[i].sheet == OrdersSheet
  {
    if req.verb != "POST" then Reject(405, st, [])
    else if !HasRequired(req) then Reject(400, st, [])
    else
      var row := OrderRow(req, now);
      var effects := [SheetAppend(OrdersSheet, row)];
      if !Reaches(st, env, SheetsAppend, OrdersSheet) then Reject(500, st, effects)
      else Outcome(Reply(200, NoPayload), Append(st, OrdersSheet, row), effects)
  }

  lemma NonPostRejected(req: Request, st: Store, env: Env, now: string)
    ensures var o := Handle(req, st, env, now);
      o.reply.status == 405 <==> req.verb != "POST"
    ensures var o := Handle(req, st, env, now);
      o.reply.status == 405 ==> o.store == st && o.effects == []
  {
  }

  lemma MissingFieldsRejected(req: Request, st: Store, env: Env, now: string)
    requires req.verb == "POST"
    ensures var o := Handle(req, st, env, now);
      o.reply.status == 400 <==> !HasRequired(req)
    ensures var o := Handle(req, st, env, now);
      o.reply.status == 400 ==> o.store == st && o.effects == []
  {
  }

  /** A zero quantity is falsy, so it is refused like a missing one. */
  lemma ZeroQuantityRejected(req: Request, st: Store, env: Env, now: string)
    requires req.verb == "POST" && req.quantity == Num(0.0)
    ensures Handle(req, st, env, now).reply.status == 400
  {
  }

  /** The row sent to the store, column by column. */
  lemma RowLayout(req: Request, st: Store, env: Env, now: string)
    requires req.verb == "POST" && HasRequired(req)
    ensures var o := Handle(req, st, env, now);
      && |o.effects| == 1 && o.effects[0].SheetAppend?
      && o.effects[0].sheet == OrdersSheet
      && var row := o.effects[0].row;
      && |row| == 10
      && row[0] == req.orderId && Key(row) == req.orderId
      && row[1] == req.product
      && row[2] == req.quantity
      && row[3] == req.price
      && (Truthy(req.status) ==> row[StatusColumn] == req.status)
      && (!Truthy(req.status) ==> row[StatusColumn] == Str("Pending"))
      && row[5] == req.customerName
      && (Truthy(req.email) ==> row[6] == req.email) && (!Truthy(req.email) ==> row[6] == Str(""))
      && (Truthy(req.phone) ==> row[7] == req.phone) && (!Truthy(req.phone) ==> row[7] == Str(""))
      && (Truthy(req.address) ==> row[8] == req.address) && (!Truthy(req.address) ==> row[8] == Str(""))
      && row[9] == Str(now)
  {
  }

  /** A valid request appends exactly one row to Orders and changes nothing
      else; a failed append changes nothing at all. Duplicate ids are not
      checked. */
  lemma AppendsOnce(req: Request, st: Store, env: Env, now: string)
    requires req.verb == "POST" && HasRequired(req)
    ensures var o := Handle(req, st, env, now);
      o.reply.status == 200 <==> Reaches(st, env, SheetsAppend, OrdersSheet)
    ensures var o := Handle(req, st, env, now);
      o.reply.status == 200 ==>
        && o.store.Keys == st.Keys
        && o.store[OrdersSheet] == st[OrdersSheet] + [OrderRow(req, now)]
        && (forall s :: s in st && s != OrdersSheet ==> o.store[s] == st[s])
    ensures var o := Handle(req, st, env, now);
      o.reply.status != 200 ==> o.store == st
  {
  }

  lemma PreservesHistory(req: Request, st: Store, env: Env, now: string)
    ensures Evolves(st, Handle(req, st, env, now).store)
  {
    if Handle(req, st, env, now).reply.status == 200 {
      AppendEvolves(st, OrdersSheet, OrderRow(req, now));
    } else {
      EvolvesRefl(st);
    }
  }
}

=== FILE: add_payments.dfy ===
/** Payment reconciliation: validate the request, find the order among the
    data rows of the Orders sheet (the header row is skipped), decide whether
    the amount covers the order's price, append a payment row whatever the
    outcome, and only for a covering payment set the order's status cell to
    "Paid". */
module AddPayments {
  import opened Js
  import opened Sheets
  import opened Http

  datatype Request = Request(
    verb: string,
    orderId: Value,
    amountPaid: Value,
    paymentMethod: Value,
    reference: Value,
    payerName: Value,
    notes: Value)

  predicate HasRequired(req: Request) {
    && Truthy(req.orderId)
    && Truthy(req.amountPaid)
    && Truthy(req.paymentMethod)
    && Truthy(req.payerName)
  }

  /** Column D of an order row is its unit price. */
  const PriceColumn: nat := 3

  /** "TRUE" when the parsed amount is at least the parsed column-D price. */
  function Verified(amountPaid: Value, orderRow: Row): string {
    if AtLeast(ParseFloat(amountPaid), ParseFloat(At(orderRow, PriceColumn))) then "TRUE" else "FALSE"
  }

  /** `PAY-` and the upper-cased first group of a v4 uuid. */
  function PaymentId(uuid: string): string {
    "PAY-" + Upper(SplitHead(uuid, '-'))
  }

  /** Columns A..J of a payment; `now` is the formatted local date. */
  function PaymentRow(req: Request, paymentId: string, now: string, verified: string): Row {
    [ Str(paymentId),
      req.orderId,
      req.amountPaid,
      req.paymentMethod,
      Or(req.reference, Str("-")),
      req.payerName,
      Str(now),
      Str(verified),
      Or(req.notes, Str("")),
      Str("System") ]
  }

  /** Whatever the path, only Orders and Payments can change; a request
      turned away before the payment append changes nothing, and at most the
      read, the append and the status write are attempted. */
  function Handle(req: Request, st: Store, env: Env, uuid: string, now: string): (o: Outcome)
    ensures o.reply.status in {200, 400, 404, 405, 500}
    ensures o.store.Keys == st.Keys
    ensures forall s :: s in st && s != OrdersSheet && s != PaymentsSheet ==> o.store[s] == st[s]
    ensures o.reply.status in {400, 404, 405} ==> o.store == st
    ensures |o.effects| <= 3
    ensures |o.effects| > 0 ==> o.effects[0] == SheetRead(OrdersSheet)
    ensures |o.effects| > 1 ==> o.effects[1].SheetAppend? && o.effects[1].sheet == PaymentsSheet
    ensures |o.effects| > 2 ==> o.effects[2].SheetUpdate? && o.effects[2].sheet == OrdersSheet
  {
    if req.verb != "POST" then Reject(405, st, [])
    else if !HasRequired(req) then Reject(400, st, [])
    else
      var read := [SheetRead(OrdersSheet)];
      if !Reaches(st, env, SheetsGet, OrdersSheet) then Reject(500, st, read)
      else
        var orderRows := DataRows(st[OrdersSheet]);
        match FindIndex(orderRows, req.orderId)
        case None => Reject(404, st, read)
        case Some(orderIndex) =>
          var verified := Verified(req.amountPaid, orderRows[orderIndex]);
          var paymentId := PaymentId(uuid);
          var row := PaymentRow(req, paymentId, now, verified);
          var appended := read + [SheetAppend(PaymentsSheet, row)];
          if !Reaches(st, env, SheetsAppend, PaymentsSheet) then Reject(500, st, appended)
          else
            var st1 := Append(st, PaymentsSheet, row);
            var done := Reply(200, PaymentLogged(paymentId, verified));
            if verified == "TRUE" then
              var updated := appended + [SheetUpdate(OrdersSheet, orderIndex + 2, StatusColumn, Str("Paid"))];
              if SheetsUpdate in env.down then Reject(500, st1, updated)
              else Outcome(done, UpdateCell(st1, OrdersSheet, orderIndex + 1, StatusColumn, Str("Paid")), updated)
            else Outcome(done, st1, appended)
  }

  /** The order a request settles: sheet row index m is the first row after
      the header whose column A equals the order id. */
  predicate FirstDataMatch(orders: seq<Row>, key: Value, m: nat) {
    && 1 <= m < |orders|
    && Key(orders[m]) == key
    && forall j :: 1 <= j < m ==> Key(orders[j]) != key
  }

  /** The request gets past validation and the Orders read. */
  predicate ReadsOrders(req: Request, st: Store, env: Env) {
    req.verb == "POST" && HasRequired(req) && Reaches(st, env, SheetsGet, OrdersSheet)
  }

  lemma DataLookup(orders: seq<Row>, key: Value, m: nat)
    requires FirstDataMatch(orders, key, m)
    ensures FindIndex(DataRows(orders), key) == Some(m - 1)
    ensures DataRows(orders)[m - 1] == orders[m]
  {
    var rows := DataRows(orders);
    assert forall j :: 0 <= j < |rows| ==> rows[j] == orders[j + 1];
    FindIndexUnique(rows, key, m - 1);
  }

  lemma NonPostRejected(req: Request, st: Store, env: Env, uuid: string, now: string)
    ensures var o := Handle(req, st, env, uuid, now);
      o.reply.status == 405 <==> req.verb != "POST"
    ensures var o := Handle(req, st, env, uuid, now);
      o.reply.status == 405 ==> o.store == st && o.effects == []
  {
  }

  /** Any falsy required field, an amount of 0 included, is refused before
      any sheet is read. */
  lemma MissingFieldsRejected(req: Request, st: Store, env: Env, uuid: string, now: string)
    requires req.verb == "POST"
    ensures var o := Handle(req, st, env, uuid, now);
      o.reply.status == 400 <==> !HasRequired(req)
    ensures var o := Handle(req, st, env, uuid, now);
      o.reply.status == 400 ==> o.store == st && o.effects == []
    ensures req.amountPaid == Num(0.0) ==> Handle(req, st, env, uuid, now).reply.status == 400
  {
  }

  /** 404 exactly when no row after the header carries the order id; the
      header row itself is never a match. Nothing is written. */
  lemma LookupSkipsHeader(req: Request, st: Store, env: Env, uuid: string, now: string)
    requires ReadsOrders(req, st, env)
    ensures var o := Handle(req, st, env, uuid, now);
      o.reply.status == 404 <==> forall j :: 1 <= j < |st[OrdersSheet]| ==> Key(st[OrdersSheet][j]) != req.orderId
    ensures var o := Handle(req, st, env, uuid, now);
      o.reply.status == 404 ==> o.store == st && o.effects == [SheetRead(OrdersSheet)]
  {
    var orders := st[OrdersSheet];
    var rows := DataRows(orders);
    assert forall j :: 0 <= j < |rows| ==> rows[j] == orders[j + 1];
    if FindIndex(rows, req.orderId).Some? {
      var i := FindIndex(rows, req.orderId).value;
      assert Key(orders[i + 1]) == req.orderId;
    }
  }

  /** Past the lookup, the second call appends the payment row built from
      the first data match's verdict, whether or not it covers the price, and
      on success Payments gains exactly that row. */
  lemma PaymentRowLayout(req: Request, st: Store, env: Env, uuid: string, now: string, m: nat)
    requires ReadsOrders(req, st, env)
    requires FirstDataMatch(st[OrdersSheet], req.orderId, m)
    ensures var o := Handle(req, st, env, uuid, now);
      var row := PaymentRow(req, PaymentId(uuid), now, Verified(req.amountPaid, st[OrdersSheet][m]));
      && |o.effects| >= 2
      && o.effects[..2] == [SheetRead(OrdersSheet), SheetAppend(PaymentsSheet, row)]
      && (o.reply.status == 200 ==> o.store[PaymentsSheet] == st[PaymentsSheet] + [row])
  {
    DataLookup(st[OrdersSheet], req.orderId, m);
  }

  /** The ten columns of a payment row, with "-" standing in for a missing
      reference and "" for missing notes, and "System" as the recorder. */
  lemma PaymentColumns(req: Request, paymentId: string, now: string, verified: string)
    ensures var row := PaymentRow(req, paymentId, now, verified);
      && |row| == 10
      && row[0] == Str(paymentId)
      && row[1] == req.orderId
      && row[2] == req.amountPaid
      && row[3] == req.paymentMethod
      && (Truthy(req.reference) ==> row[4] == req.reference) && (!Truthy(req.reference) ==> row[4] == Str("-"))
      && row[5] == req.payerName
      && row[6] == Str(now)
      && row[7] == Str(verified)
      && (Truthy(req.notes) ==> row[8] == req.notes) && (!Truthy(req.notes) ==> row[8] == Str(""))
      && row[9] == Str("System")
  {
  }

  /** `verified` is "TRUE" exactly when the amount covers the matched row's
      column-D price, and the reply carries the same verdict. */
  lemma VerifiedIff(req: Request, st: Store, env: Env, uuid: string, now: string, m: nat)
    requires ReadsOrders(req, st, env)
    requires FirstDataMatch(st[OrdersSheet], req.orderId, m)
    requires Reaches(st, env, SheetsAppend, PaymentsSheet)
    ensures var o := Handle(req, st, env, uuid, now);
      o.reply.status == 200 || o.reply.status == 500
    ensures var o := Handle(req, st, env, uuid, now);
      o.reply.status == 200 ==>
        && o.reply.payload.PaymentLogged?
        && o.reply.payload.paymentId == PaymentId(uuid)
        && (o.reply.payload.verified == "TRUE" <==>
              AtLeast(ParseFloat(req.amountPaid), ParseFloat(At(st[OrdersSheet][m], PriceColumn))))
        && (o.reply.payload.verified == "FALSE" <==>
              !AtLeast(ParseFloat(req.amountPaid), ParseFloat(At(st[OrdersSheet][m], PriceColumn))))
  {
    DataLookup(st[OrdersSheet], req.orderId, m);
  }

  /** A covering payment changes exactly one Orders cell: column E of sheet row
      m + 1 (1-based), the matched row, becomes "Paid". A payment that does
      not cover leaves Orders alone. */
  lemma StatusUpdate(req: Request, st: Store, env: Env, uuid: string, now: string, m: nat)
    requires ReadsOrders(req, st, env)
    requires FirstDataMatch(st[OrdersSheet], req.orderId, m)
    requires Reaches(st, env, SheetsAppend, PaymentsSheet)
    ensures var o := Handle(req, st, env, uuid, now);
      var verified := Verified(req.amountPaid, st[OrdersSheet][m]) == "TRUE";
      && (verified && SheetsUpdate !in env.down ==>
            && o.reply.status == 200
            && |o.effects| == 3
            && o.effects[2] == SheetUpdate(OrdersSheet, m + 1, StatusColumn, Str("Paid"))
            && |o.store[OrdersSheet]| == |st[OrdersSheet]|
            && o.store[OrdersSheet][m] == SetAt(st[OrdersSheet][m], StatusColumn, Str("Paid"))
            && (forall j :: 0 <= j < |st[OrdersSheet]| && j != m ==> o.store[OrdersSheet][j] == st[OrdersSheet][j]))
      && (!verified ==>
            && o.reply.status == 200
            && |o.effects| == 2
            && o.store[OrdersSheet] == st[OrdersSheet])
  {
    DataLookup(st[OrdersSheet], req.orderId, m);
  }

  /** The payment append comes first, so a failed status write still leaves
      the payment row in place while the caller sees 500. */
  lemma FailedUpdateKeepsPayment(req: Request, st: Store, env: Env, uuid: string, now: string, m: nat)
    requires ReadsOrders(req, st, env)
    requires FirstDataMatch(st[OrdersSheet], req.orderId, m)
    requires Reaches(st, env, SheetsAppend, PaymentsSheet)
    requires Verified(req.amountPaid, st[OrdersSheet][m]) == "TRUE"
    requires SheetsUpdate in env.down
    ensures var o := Handle(req, st, env, uuid, now);
      && o.reply.status == 500
      && o.store[PaymentsSheet] == st[PaymentsSheet] + [PaymentRow(req, PaymentId(uuid), now, "TRUE")]
      && o.store[OrdersSheet] == st[OrdersSheet]
      && |o.effects| == 3 && o.effects[1].SheetAppend? && o.effects[2].SheetUpdate?
  {
    DataLookup(st[OrdersSheet], req.orderId, m);
  }

  lemma PaymentIdShape(uuid: string)
    ensures PaymentId(uuid)[..4] == "PAY-"
    ensures '-' !in PaymentId(uuid)[4..]
    ensures forall i :: 4 <= i < |PaymentId(uuid)| ==> !IsLower(PaymentId(uuid)[i])
  {
    var head := SplitHead(uuid, '-');
    var id := PaymentId(uuid);
    assert id[4..] == Upper(head);
    forall i | 0 <= i < |head|
      ensures Upper(head)[i] != '-'
    {
      assert head[i] != '-';
    }
  }

  /** The verdict reads only the unit price in column D: the quantity in
      column C never enters it, so one unit's price marks a multi-unit order
      as covered. */
  lemma IgnoresQuantity(amountPaid: Value, orderRow: Row, quantity: Value)
    requires |orderRow| > PriceColumn
    ensures Verified(amountPaid, orderRow[2 := quantity]) == Verified(amountPaid, orderRow)
    ensures (&& ParseFloat(At(orderRow, PriceColumn)) == Some(1000.0)
             && amountPaid == Num(1000.0)
             && ToNumber(orderRow[2]) == Some(3.0))
            ==> Verified(amountPaid, orderRow) == "TRUE"
  {
  }

  lemma PreservesHistory(req: Request, st: Store, env: Env, uuid: string, now: string)
    ensures Evolves(st, Handle(req, st, env, uuid, now).store)
  {
    var o := Handle(req, st, env, uuid, now);
    if !ReadsOrders(req, st, env) || FindIndex(DataRows(st[OrdersSheet]), req.orderId).None?
       || !Reaches(st, env, SheetsAppend, PaymentsSheet) {
      EvolvesRefl(st);
    } else {
      var i := FindIndex(DataRows(st[OrdersSheet]), req.orderId).value;
      var verified := Verified(req.amountPaid, DataRows(st[OrdersSheet])[i]);
      var row := PaymentRow(req, PaymentId(uuid), now, verified);
      var st1 := Append(st, PaymentsSheet, row);
      AppendEvolves(st, PaymentsSheet, row);
      if verified == "TRUE" && SheetsUpdate !in env.down {
        MarkPaidEvolves(st1, i + 1);
        EvolvesTrans(st, st1, o.store);
      }
    }
  }
}

=== FILE: http.dfy ===
/** What a handler sees of the world besides its request and the store: which
    remote services fail, what the document store hands back, and the ordered
    log of remote calls the handler attempts. A call that throws ends the
    handler in its catch block with status 500. */
module Http {
  import opened Js
  import opened Sheets

  datatype Service =
    | SheetsGet       // spreadsheets.values.get
    | SheetsAppend    // spreadsheets.values.append
    | SheetsUpdate    // spreadsheets.values.update
    | DriveCreate     // drive.files.create
    | MailSend        // transporter.sendMail
    | GatewayFetch    // the gateway's verify endpoint, including decoding its JSON
    | PdfRender       // rendering the invoice into a buffer and `Buffer.from` of it

  /** The external outcome of a request: the services whose call throws, and
      the `webViewLink` the document store returns for an upload. */
  datatype Env = Env(down: set<Service>, driveLink: Value)

  /** The content of a rendered invoice document. */
  datatype Document = Document(
    invoiceId: string,
    orderId: Value,
    customer: Value,
    email: Value,
    phone: Value,
    address: Value,
    date: string,
    product: Value,
    quantity: Value,
    unitPrice: Value,
    total: Option<real>,
    status: Value)

  /** One attempted remote call, in the order the handler makes it. */
  datatype Effect =
    | SheetRead(sheet: string)
    | SheetAppend(sheet: string, row: Row)
    | SheetUpdate(sheet: string, rowNumber: nat, column: nat, value: Value)
    | GatewayVerify(reference: Value)
    | DriveUpload(fileName: string, doc: Document)
    | Mail(to: Value, subject: string, attachment: string, doc: Document)

  /** The JSON body fields a caller can act on, beyond the message text. */
  datatype Payload =
    | NoPayload
    | PaymentLogged(paymentId: string, verified: string)
    | GatewayLogged(paymentId: string, row: Row)
    | InvoiceIssued(invoiceId: string, invoiceUrl: Value)

  datatype Reply = Reply(status: int, payload: Payload)

  datatype Outcome = Outcome(reply: Reply, store: Store, effects: seq<Effect>)

  function Reject(status: int, st: Store, effects: seq<Effect>): Outcome {
    Outcome(Reply(status, NoPayload), st, effects)
  }

  /** A call to `svc` on `sheet` succeeds: the service is up and the sheet
      exists (the Sheets API rejects a range naming a missing sheet). */
  predicate Reaches(st: Store, env: Env, svc: Service, sheet: string) {
    svc !in env.down && sheet in st
  }
}

=== FILE: invoice.dfy ===
/** Invoice generation: find the order in the "Order logs" sheet (every row
    is searched, the header included), price it as unit price times quantity,
    render the invoice, then upload it, log it and mail it, in that order.
    The first failing step turns the whole request into a 500, whatever the
    earlier steps already did. */
module Invoice {
  import opened Js
  import opened Sheets
  import opened Http
  import AddOrder

  datatype Request = Request(verb: string, orderId: Value)

  /** Number(price) * Number(quantity), from columns D and C. */
  function Total(orderRow: Row): Option<real> {
    Times(ToNumber(At(orderRow, 3)), ToNumber(At(orderRow, 2)))
  }

  /** `INV-` and the upper-cased first group of a v4 uuid. */
  function InvoiceId(uuid: string): string {
    "INV-" + Upper(SplitHead(uuid, '-'))
  }

  function FileName(invoiceId: string): string {
    invoiceId + ".pdf"
  }

  /** The invoice's content, read off the order row; `now` is the date line. */
  function Render(invoiceId: string, orderRow: Row, now: string): Document {
    Document(
      invoiceId,
      At(orderRow, 0),
      At(orderRow, 5),
      At(orderRow, 6),
      At(orderRow, 7),
      At(orderRow, 8),
      now,
      At(orderRow, 1),
      At(orderRow, 2),
      At(orderRow, 3),
      Total(orderRow),
      Or(At(orderRow, StatusColumn), Str("Pending")))
  }

  /** Columns A..H of the invoice log. */
  function LogRow(req: Request, invoiceId: string, orderRow: Row, now: string, url: Value): Row {
    [ Str(invoiceId),
      req.orderId,
      At(orderRow, 5),
      At(orderRow, 6),
      Naira(Total(orderRow)),
      Str("Generated"),
      Str(now),
      url ]
  }

  function Subject(invoiceId: string): string {
    "Your Invoice - " + invoiceId
  }

  /** Only the InvoiceLogs sheet can change; a refused or unmatched request
      changes nothing and makes no upload, log or mail call. */
  function Handle(req: Request, st: Store, env: Env, uuid: string, now: string): (o: Outcome)
    ensures o.reply.status in {200, 400, 404, 405, 500}
    ensures o.store.Keys == st.Keys
    ensures forall s :: s in st && s != InvoiceLogsSheet ==> o.store[s] == st[s]
    ensures o.reply.status in {400, 404, 405} ==> o.store == st && |o.effects| <= 1
    ensures |o.effects| <= 4
    ensures o.reply.status in {400, 404, 405} ==>
      forall i :: 0 <= i < |o.effects| ==> o.effects[i] == SheetRead(OrderLogsSheet)
  {
    if req.verb != "POST" then Reject(405, st, [])
    else if !Truthy(req.orderId) then Reject(400, st, [])
    else
      var read := [SheetRead(OrderLogsSheet)];
      if !Reaches(st, env, SheetsGet, OrderLogsSheet) then Reject(500, st, read)
      // an empty range comes back without `values`, and `rows.find` throws
      else if |st[OrderLogsSheet]| == 0 then Reject(500, st, read)
      else
        var rows := st[OrderLogsSheet];
        match FindIndex(rows, req.orderId)
        case None => Reject(404, st, read)
        case Some(i) =>
          var invoiceId := InvoiceId(uuid);
          var doc := Render(invoiceId, rows[i], now);
          // rendering and `Buffer.from` run before the upload is attempted
          if PdfRender in env.down then Reject(500, st, read)
          else
            var uploaded := read + [DriveUpload(FileName(invoiceId), doc)];
            if DriveCreate in env.down then Reject(500, st, uploaded)
            else
              var row := LogRow(req, invoiceId, rows[i], now, env.driveLink);
              var logged := uploaded + [SheetAppend(InvoiceLogsSheet, row)];
              if !Reaches(st, env, SheetsAppend, InvoiceLogsSheet) then Reject(500, st, logged)
              else
                var st1 := Append(st, InvoiceLogsSheet, row);
                var mailed := logged + [Mail(At(rows[i], 6), Subject(invoiceId), FileName(invoiceId), doc)];
                if MailSend in env.down then Reject(500, st1, mailed)
                else Outcome(Reply(200, InvoiceIssued(invoiceId, env.driveLink)), st1, mailed)
  }

  /** The request gets past validation and reads a non-empty "Order logs". */
  predicate ReadsOrderLogs(req: Request, st: Store, env: Env) {
    && req.verb == "POST" && Truthy(req.orderId)
    && Reaches(st, env, SheetsGet, OrderLogsSheet)
    && |st[OrderLogsSheet]| > 0
  }

  /** Row index m is the first row of the sheet, header included, whose
      column A equals the order id. */
  predicate FirstMatch(rows: seq<Row>, key: Value, m: nat) {
    m < |rows| && Key(rows[m]) == key && forall j :: 0 <= j < m ==> Key(rows[j]) != key
  }

  lemma NonPostRejected(req: Request, st: Store, env: Env, uuid: string, now: string)
    ensures var o := Handle(req, st, env, uuid, now);
      o.reply.status == 405 <==> req.verb != "POST"
    ensures var o := Handle(req, st, env, uuid, now);
      o.reply.status == 405 ==> o.store == st && o.effects == []
  {
  }

  lemma MissingOrderIdRejected(req: Request, st: Store, env: Env, uuid: string, now: string)
    requires req.verb == "POST"
    ensures var o := Handle(req, st, env, uuid, now);
      o.reply.status == 400 <==> !Truthy(req.orderId)
    ensures var o := Handle(req, st, env, uuid, now);
      o.reply.status == 400 ==> o.store == st && o.effects == []
  {
  }

  /** 404 exactly when no row, the header included, carries the order id; it
      comes before any upload, log write or mail. */
  lemma LookupIncludesHeader(req: Request, st: Store, env: Env, uuid: string, now: string)
    requires ReadsOrderLogs(req, st, env)
    ensures var o := Handle(req, st, env, uuid, now);
      o.reply.status == 404 <==> forall j :: 0 <= j < |st[OrderLogsSheet]| ==> Key(st[OrderLogsSheet][j]) != req.orderId
    ensures var o := Handle(req, st, env, uuid, now);
      o.reply.status == 404 ==> o.store == st && o.effects == [SheetRead(OrderLogsSheet)]
  {
  }

  /** An order sheet with no rows at all is a 500, not a 404. */
  lemma EmptySheetFails(req: Request, st: Store, env: Env, uuid: string, now: string)
    requires req.verb == "POST" && Truthy(req.orderId)
    requires Reaches(st, env, SheetsGet, OrderLogsSheet) && st[OrderLogsSheet] == []
    ensures var o := Handle(req, st, env, uuid, now);
      o.reply.status == 500 && o.store == st && o.effects == [SheetRead(OrderLogsSheet)]
  {
  }

  /** A row laid out the way add-order writes an order renders as that
      order: the destructuring picks each field from the column add-order put
      it in, so the total is price times quantity (all three units of a
      three-unit order, unlike the payment check), and the status is the
      order's own or "Pending". */
  lemma RenderedContent(invoiceId: string, placed: AddOrder.Request, placedAt: string, now: string)
    ensures var doc := Render(invoiceId, AddOrder.OrderRow(placed, placedAt), now);
      && doc.invoiceId == invoiceId
      && doc.orderId == placed.orderId
      && doc.customer == placed.customerName
      && doc.email == Or(placed.email, Str(""))
      && doc.phone == Or(placed.phone, Str(""))
      && doc.address == Or(placed.address, Str(""))
      && doc.date == now
      && doc.product == placed.product
      && doc.quantity == placed.quantity
      && doc.unitPrice == placed.price
      && doc.total == Times(ToNumber(placed.price), ToNumber(placed.quantity))
      && doc.status == Or(placed.status, Str("Pending"))
    ensures placed.quantity == Num(3.0) && placed.price == Num(1000.0) ==>
      Render(invoiceId, AddOrder.OrderRow(placed, placedAt), now).total == Some(3000.0)
  {
    var row := AddOrder.OrderRow(placed, placedAt);
    assert At(row, 2) == placed.quantity && At(row, 3) == placed.price;
    assert At(row, StatusColumn) == Or(placed.status, Str("Pending"));
  }

  /** For any matched "Order logs" row, the uploaded invoice shows the row's
      status cell, or "Pending" when that cell is empty, missing or otherwise
      falsy. */
  lemma RenderedStatus(req: Request, st: Store, env: Env, uuid: string, now: string, m: nat)
    requires ReadsOrderLogs(req, st, env)
    requires FirstMatch(st[OrderLogsSheet], req.orderId, m)
    requires PdfRender !in env.down
    ensures var o := Handle(req, st, env, uuid, now);
      var cell := At(st[OrderLogsSheet][m], StatusColumn);
      && |o.effects| >= 2 && o.effects[1].DriveUpload?
      && (!Truthy(cell) ==> o.effects[1].doc.status == Str("Pending"))
      && (Truthy(cell) ==> o.effects[1].doc.status == cell)
  {
    FindIndexUnique(st[OrderLogsSheet], req.orderId, m);
  }

  lemma InvoiceIdShape(uuid: string)
    ensures InvoiceId(uuid)[..4] == "INV-"
    ensures '-' !in InvoiceId(uuid)[4..]
    ensures forall i :: 4 <= i < |InvoiceId(uuid)| ==> !IsLower(InvoiceId(uuid)[i])
  {
    var head := SplitHead(uuid, '-');
    assert InvoiceId(uuid)[4..] == Upper(head);
    forall i | 0 <= i < |head|
      ensures Upper(head)[i] != '-'
    {
      assert head[i] != '-';
    }
  }

  /** On success the calls run read, upload, log append, mail; the document
      uploaded is the one mailed, under the same file name, to the order row's
      email; the log row is appended once; and the reply carries the id and
      the link the upload returned. */
  lemma StepOrder(req: Request, st: Store, env: Env, uuid: string, now: string, m: nat)
    requires ReadsOrderLogs(req, st, env)
    requires FirstMatch(st[OrderLogsSheet], req.orderId, m)
    requires Handle(req, st, env, uuid, now).reply.status == 200
    ensures var o := Handle(req, st, env, uuid, now);
      var orderRow := st[OrderLogsSheet][m];
      var id := InvoiceId(uuid);
      var doc := Render(id, orderRow, now);
      && o.reply.payload == InvoiceIssued(id, env.driveLink)
      && o.effects == [ SheetRead(OrderLogsSheet),
                        DriveUpload(FileName(id), doc),
                        SheetAppend(InvoiceLogsSheet, LogRow(req, id, orderRow, now, env.driveLink)),
                        Mail(At(orderRow, 6), Subject(id), FileName(id), doc) ]
      && doc.orderId == req.orderId
      && o.store[InvoiceLogsSheet] == st[InvoiceLogsSheet] + [LogRow(req, id, orderRow, now, env.driveLink)]
      && (forall s :: s in st && s != InvoiceLogsSheet ==> o.store[s] == st[s])
  {
    FindIndexUnique(st[OrderLogsSheet], req.orderId, m);
  }

  /** Once the upload has gone through, the third call appends the
      eight-column log row: the fresh invoice id, the order id that matched,
      customer and email from columns F and G of the first match, the naira
      total of its columns D and C, "Generated", the date and the upload's
      link. For a row add-order wrote, those are the order's customer name,
      its email or "", and its price times quantity. */
  lemma LogRowLayout(req: Request, st: Store, env: Env, uuid: string, now: string, m: nat,
                     placed: AddOrder.Request, placedAt: string)
    requires ReadsOrderLogs(req, st, env)
    requires FirstMatch(st[OrderLogsSheet], req.orderId, m)
    requires PdfRender !in env.down && DriveCreate !in env.down
    ensures var o := Handle(req, st, env, uuid, now);
      var orderRow := st[OrderLogsSheet][m];
      && |o.effects| >= 3 && o.effects[2].SheetAppend?
      && o.effects[2].sheet == InvoiceLogsSheet
      && var row := o.effects[2].row;
      && |row| == 8
      && row[0] == Str(InvoiceId(uuid))
      && row[1] == req.orderId && row[1] == Key(orderRow)
      && row[2] == At(orderRow, 5)
      && row[3] == At(orderRow, 6)
      && row[4] == Naira(Times(ToNumber(At(orderRow, 3)), ToNumber(At(orderRow, 2))))
      && row[5] == Str("Generated")
      && row[6] == Str(now)
      && row[7] == env.driveLink
    ensures var o := Handle(req, st, env, uuid, now);
      st[OrderLogsSheet][m] == AddOrder.OrderRow(placed, placedAt) ==>
        && |o.effects| >= 3
        && o.effects[2].SheetAppend? && |o.effects[2].row| == 8
        && o.effects[2].row[2] == placed.customerName
        && o.effects[2].row[3] == Or(placed.email, Str(""))
        && o.effects[2].row[4] == Naira(Times(ToNumber(placed.price), ToNumber(placed.quantity)))
  {
    FindIndexUnique(st[OrderLogsSheet], req.orderId, m);
  }

  /** Each failing step, rendering included, stops the chain there and
      yields 500; the effects are exactly the calls made so far (a rendering
      failure leaves only the read), and a mail failure still leaves the
      uploaded document and the appended log row behind. */
  lemma LateFailures(req: Request, st: Store, env: Env, uuid: string, now: string, m: nat)
    requires ReadsOrderLogs(req, st, env)
    requires FirstMatch(st[OrderLogsSheet], req.orderId, m)
    ensures var o := Handle(req, st, env, uuid, now);
      PdfRender in env.down ==>
        o.reply.status == 500 && o.store == st && o.effects == [SheetRead(OrderLogsSheet)]
    ensures var o := Handle(req, st, env, uuid, now);
      PdfRender !in env.down && DriveCreate in env.down ==>
        o.reply.status == 500 && o.store == st && |o.effects| == 2 && o.effects[1].DriveUpload?
    ensures var o := Handle(req, st, env, uuid, now);
      PdfRender !in env.down && DriveCreate !in env.down && !Reaches(st, env, SheetsAppend, InvoiceLogsSheet) ==>
        o.reply.status == 500 && o.store == st && |o.effects| == 3 && o.effects[2].SheetAppend?
    ensures var o := Handle(req, st, env, uuid, now);
      var id := InvoiceId(uuid);
      var orderRow := st[OrderLogsSheet][m];
      PdfRender !in env.down && DriveCreate !in env.down && Reaches(st, env, SheetsAppend, InvoiceLogsSheet)
        && MailSend in env.down ==>
        && o.reply.status == 500
        && o.store[InvoiceLogsSheet] == st[InvoiceLogsSheet] + [LogRow(req, id, orderRow, now, env.driveLink)]
        && |o.effects| == 4
        && o.effects[1] == DriveUpload(FileName(id), Render(id, orderRow, now))
        && o.effects[3].Mail?
    ensures var o := Handle(req, st, env, uuid, now);
      o.reply.status == 200 <==>
        PdfRender !in env.down && DriveCreate !in env.down && Reaches(st, env, SheetsAppend, InvoiceLogsSheet) && MailSend !in env.down
  {
    FindIndexUnique(st[OrderLogsSheet], req.orderId, m);
  }

  /** The handler reads only "Order logs": stores that differ elsewhere, the
      Orders sheet included, get the same reply and the same calls. */
  lemma ReadsOnlyOrderLogs(req: Request, st: Store, st': Store, env: Env, uuid: string, now: string)
    requires (OrderLogsSheet in st <==> OrderLogsSheet in st')
    requires OrderLogsSheet in st ==> st[OrderLogsSheet] == st'[OrderLogsSheet]
    requires (InvoiceLogsSheet in st <==> InvoiceLogsSheet in st')
    ensures Handle(req, st, env, uuid, now).reply == Handle(req, st', env, uuid, now).reply
    ensures Handle(req, st, env, uuid, now).effects == Handle(req, st', env, uuid, now).effects
  {
  }

  lemma PreservesHistory(req: Request, st: Store, env: Env, uuid: string, now: string)
    ensures Evolves(st, Handle(req, st, env, uuid, now).store)
  {
    var o := Handle(req, st, env, uuid, now);
    if o.store == st {
      EvolvesRefl(st);
    } else {
      var rows := st[OrderLogsSheet];
      var i := FindIndex(rows, req.orderId).value;
      AppendEvolves(st, InvoiceLogsSheet, LogRow(req, InvoiceId(uuid), rows[i], now, env.driveLink));
    }
  }
}

=== FILE: js.dfy ===
/** The slice of JavaScript value semantics the handlers rely on: the values a
    JSON request body or a sheet row can hold, falsiness, the `||` default
    idiom, out-of-range array reads, the numeric conversions `Number(..)` and
    `parseFloat(..)`, and the three string operations used to mint ids. */
module Js {

  datatype Option<+T> = None | Some(value: T)

  /** A JavaScript value as it arrives in a request body or sits in a sheet
      cell. `Naira(n)` stands for the template string `₦${n}` written into the
      invoice log: the model keeps the number (None is NaN) and leaves its
      decimal rendering out. */
  datatype Value =
    | Undefined
    | Null
    | Bool(b: bool)
    | Num(n: real)
    | Str(s: string)
    | Naira(amount: Option<real>)

  /** JavaScript truthiness: `undefined`, `null`, `false`, `0` and `""` are falsy. */
  predicate Truthy(v: Value) {
    match v
    case Undefined => false
    case Null => false
    case Bool(b) => b
    case Num(n) => n != 0.0
    case Str(s) => s != ""
    case Naira(_) => true
  }

  /** The falsy values, listed: exactly the five JavaScript treats as false
      among those a body or a cell can hold. */
  lemma FalsyValues(v: Value)
    ensures !Truthy(v) <==> v in {Undefined, Null, Bool(false), Num(0.0), Str("")}
  {
  }

  /** `a || b`: the first operand when it is truthy, the second otherwise. */
  function Or(a: Value, b: Value): Value {
    if Truthy(a) then a else b
  }

  /** `row[i]`: reading past the end of an array gives `undefined`. */
  function At(row: seq<Value>, i: nat): Value {
    if i < |row| then row[i] else Undefined
  }

  /** `Number(v)`; None is NaN. Text that spells a number is not parsed. */
  function ToNumber(v: Value): (r: Option<real>)
    ensures v.Num? ==> r == Some(v.n)
    ensures !Truthy(v) && v != Undefined ==> r == Some(0.0)
    ensures r.Some? && r.value != 0.0 ==> Truthy(v)
    ensures v.Str? && v.s != "" ==> r.None?
  {
    match v
    case Num(n) => Some(n)
    case Null => Some(0.0)
    case Bool(b) => Some(if b then 1.0 else 0.0)
    case Str(s) => if s == "" then Some(0.0) else None
    case Undefined => None
    case Naira(_) => None
  }

  /** `parseFloat(v)`; None is NaN. Text that spells a number is not parsed. */
  function ParseFloat(v: Value): (r: Option<real>)
    ensures r.Some? <==> v.Num?
    ensures r.Some? ==> r == ToNumber(v)
    ensures !Truthy(v) ==> r.None? || r == Some(0.0)
  {
    if v.Num? then Some(v.n) else None
  }

  /** `a * b` on numbers that may be NaN. */
  function Times(a: Option<real>, b: Option<real>): Option<real> {
    if a.Some? && b.Some? then Some(a.value * b.value) else None
  }

  /** `a >= b` on numbers that may be NaN: any comparison with NaN is false. */
  predicate AtLeast(a: Option<real>, b: Option<real>) {
    a.Some? && b.Some? && a.value >= b.value
  }

  predicate IsLower(c: char) {
    'a' <= c <= 'z'
  }

  function UpperChar(c: char): char {
    if IsLower(c) then (c as int - 32) as char else c
  }

  /** `s.toUpperCase()` restricted to ASCII letters. */
  function Upper(s: string): (r: string)
    ensures |r| == |s|
    ensures forall i :: 0 <= i < |r| ==> !IsLower(r[i])
    ensures forall i :: 0 <= i < |s| && !IsLower(s[i]) ==> r[i] == s[i]
    ensures forall i :: 0 <= i < |s| && IsLower(s[i]) ==> r[i] as int == s[i] as int - 32
  {
    seq(|s|, i requires 0 <= i < |s| => UpperChar(s[i]))
  }

  /** `s.split(sep)[0]`: the text before the first separator, or all of `s`. */
  function SplitHead(s: string, sep: char): (r: string)
    ensures r <= s
    ensures sep !in r
    ensures |r| < |s| ==> s[|r|] == sep
  {
    if |s| == 0 || s[0] == sep then "" else [s[0]] + SplitHead(s[1..], sep)
  }

  /** `s.slice(-n)` for n > 0: the last n characters, or all of a shorter `s`.
      (`slice(-0)` would be all of `s`, hence the precondition.) */
  function SliceLast(s: string, n: nat): (r: string)
    requires n > 0
    ensures |r| == if |s| < n then |s| else n
    ensures r == s[|s| - |r|..]
  {
    if |s| < n then s else s[|s| - n..]
  }
}

=== FILE: paystack_verify.dfy ===
/** Gateway-verified payment: ask the payment gateway about a transaction
    reference, and only for a successful transaction append an eight-column
    payment row whose id derives from the reference. The Orders sheet is never
    read or written on this path. */
module PaystackVerify {
  import opened Js
  import opened Sheets
  import opened Http

  datatype Request = Request(verb: string, reference: Value, orderId: Value)

  /** The `data` object of the gateway's verify response. */
  datatype Transaction = Transaction(
    status: Value,
    amount: int,            // minor unit (kobo)
    customerName: Value,
    customerEmail: Value,
    channel: Value)

  /** The decoded verify response: its top-level `status` and `data`. */
  datatype GatewayReply = GatewayReply(status: Value, data: Transaction)

  predicate Succeeded(g: GatewayReply) {
    Truthy(g.status) && g.data.status == Str("success")
  }

  /** kobo to naira. */
  function KoboToNaira(kobo: int): real {
    kobo as real / 100.0
  }

  /** `PAY-` and the upper-cased last six characters of the reference. */
  function PaymentId(reference: string): string {
    "PAY-" + Upper(SliceLast(reference, 6))
  }

  function PaymentRow(req: Request, g: GatewayReply, paymentId: string, now: string): Row {
    [ Str(paymentId),
      Or(req.orderId, Str("N/A")),
      Num(KoboToNaira(g.data.amount)),
      g.data.channel,
      g.data.status,
      Or(g.data.customerName, Str("N/A")),
      g.data.customerEmail,
      Str(now) ]
  }

  /** Only the Payments sheet can change, and only on a 200; every other
      outcome leaves the store exactly as it was. */
  function Handle(req: Request, st: Store, env: Env, g: GatewayReply, now: string): (o: Outcome)
    ensures o.reply.status in {200, 400, 405, 500}
    ensures o.store.Keys == st.Keys
    ensures forall s :: s in st && s != PaymentsSheet ==> o.store[s] == st[s]
    ensures o.reply.status != 200 ==> o.store == st
    ensures |o.effects| <= 2
    ensures |o.effects| > 0 ==> o.effects[0].GatewayVerify?
    ensures |o.effects| > 1 ==> o.effects[1].SheetAppend? && o.effects[1].sheet == PaymentsSheet
  {
    if req.verb != "POST" then Reject(405, st, [])
    else if !Truthy(req.reference) then Reject(400, st, [])
    else
      var asked := [GatewayVerify(req.reference)];
      if GatewayFetch in env.down then Reject(500, st, asked)
      else if !Succeeded(g) then Reject(400, st, asked)
      // `reference.slice` exists only on strings: any other truthy value throws
      else if !req.reference.Str? then Reject(500, st, asked)
      else
        var paymentId := PaymentId(req.reference.s);
        var row := PaymentRow(req, g, paymentId, now);
        var effects := asked + [SheetAppend(PaymentsSheet, row)];
        if !Reaches(st, env, SheetsAppend, PaymentsSheet) then Reject(500, st, effects)
        else Outcome(Reply(200, GatewayLogged(paymentId, row)), Append(st, PaymentsSheet, row), effects)
  }

  lemma NonPostRejected(req: Request, st: Store, env: Env, g: GatewayReply, now: string)
    ensures var o := Handle(req, st, env, g, now);
      o.reply.status == 405 <==> req.verb != "POST"
    ensures var o := Handle(req, st, env, g, now);
      o.reply.status == 405 ==> o.store == st && o.effects == []
  {
  }

  /** A missing reference is refused before the gateway is asked. */
  lemma MissingReferenceRejected(req: Request, st: Store, env: Env, g: GatewayReply, now: string)
    requires req.verb == "POST" && !Truthy(req.reference)
    ensures var o := Handle(req, st, env, g, now);
      o.reply.status == 400 && o.store == st && o.effects == []
  {
  }

  /** A falsy top-level status or a transaction status other than "success"
      is a 400 after the single gateway call, with no write. */
  lemma GatewayGate(req: Request, st: Store, env: Env, g: GatewayReply, now: string)
    requires req.verb == "POST" && Truthy(req.reference) && GatewayFetch !in env.down
    ensures var o := Handle(req, st, env, g, now);
      !Succeeded(g) ==> o.reply.status == 400 && o.store == st && o.effects == [GatewayVerify(req.reference)]
    ensures var o := Handle(req, st, env, g, now);
      o.reply.status == 200 ==> Succeeded(g)
  {
  }

  /** A truthy reference that is not text passes the presence check and the
      gateway, then throws at `reference.slice`: 500 with nothing written. */
  lemma NonStringReferenceFails(req: Request, st: Store, env: Env, g: GatewayReply, now: string)
    requires req.verb == "POST" && Truthy(req.reference) && !req.reference.Str?
    requires GatewayFetch !in env.down && Succeeded(g)
    ensures var o := Handle(req, st, env, g, now);
      o.reply.status == 500 && o.store == st && o.effects == [GatewayVerify(req.reference)]
  {
  }

  /** The recorded amount is the gateway's amount in naira: a hundredth of the
      kobo figure, which it gives back exactly. */
  lemma AmountInNaira(req: Request, st: Store, env: Env, g: GatewayReply, now: string)
    requires Handle(req, st, env, g, now).reply.status == 200
    ensures var row := Handle(req, st, env, g, now).reply.payload.row;
      row[2].Num? && row[2].n * 100.0 == g.data.amount as real
  {
  }

  /** The id is a function of the reference alone, case-insensitive in its
      last six characters, and blind to everything before them. */
  lemma PaymentIdFromReference(a: string, b: string)
    ensures PaymentId(a)[..4] == "PAY-"
    ensures |PaymentId(a)| <= 10
    ensures |a| >= 6 ==> |PaymentId(a)| == 10
    ensures Upper(SliceLast(a, 6)) == Upper(SliceLast(b, 6)) ==> PaymentId(a) == PaymentId(b)
  {
  }

  /** Two different references can share a payment id. */
  lemma PaymentIdCollides()
    ensures "T100_abc123" != "T200_ABC123"
    ensures PaymentId("T100_abc123") == PaymentId("T200_ABC123") == "PAY-ABC123"
  {
    assert SliceLast("T100_abc123", 6) == "abc123";
    assert SliceLast("T200_ABC123", 6) == "ABC123";
    assert Upper("abc123") == "ABC123";
    assert Upper("ABC123") == "ABC123";
  }

  /** The eight columns of a gateway payment row, with "N/A" standing in for
      a missing order id or customer name. */
  lemma RowLayout(req: Request, g: GatewayReply, paymentId: string, now: string)
    requires Succeeded(g)
    ensures var row := PaymentRow(req, g, paymentId, now);
      && |row| == 8
      && row[0] == Str(paymentId)
      && (Truthy(req.orderId) ==> row[1] == req.orderId)
      && (!Truthy(req.orderId) ==> row[1] == Str("N/A"))
      && row[2] == Num(KoboToNaira(g.data.amount))
      && row[3] == g.data.channel
      && row[4] == Str("success")
      && (Truthy(g.data.customerName) ==> row[5] == g.data.customerName)
      && (!Truthy(g.data.customerName) ==> row[5] == Str("N/A"))
      && row[6] == g.data.customerEmail
      && row[7] == Str(now)
  {
  }

  /** A successful verification appends exactly that row to Payments, after
      the one gateway call, and no other sheet changes. */
  lemma AppendsOnce(req: Request, st: Store, env: Env, g: GatewayReply, now: string)
    requires req.verb == "POST" && Truthy(req.reference) && req.reference.Str?
    requires GatewayFetch !in env.down && Succeeded(g)
    requires Reaches(st, env, SheetsAppend, PaymentsSheet)
    ensures var o := Handle(req, st, env, g, now);
      var row := PaymentRow(req, g, PaymentId(req.reference.s), now);
      && o.reply == Reply(200, GatewayLogged(PaymentId(req.reference.s), row))
      && o.effects == [GatewayVerify(req.reference), SheetAppend(PaymentsSheet, row)]
      && o.store[PaymentsSheet] == st[PaymentsSheet] + [row]
      && (forall s :: s in st && s != PaymentsSheet ==> o.store[s] == st[s])
  {
    var row := PaymentRow(req, g, PaymentId(req.reference.s), now);
    Logged(req, st, env, g, now);
    assert Append(st, PaymentsSheet, row)[PaymentsSheet] == st[PaymentsSheet] + [row];
  }

  /** The outcome of a verification that passes every check. */
  lemma Logged(req: Request, st: Store, env: Env, g: GatewayReply, now: string)
    requires req.verb == "POST" && Truthy(req.reference) && req.reference.Str?
    requires GatewayFetch !in env.down && Succeeded(g)
    requires Reaches(st, env, SheetsAppend, PaymentsSheet)
    ensures var id := PaymentId(req.reference.s);
      var row := PaymentRow(req, g, id, now);
      Handle(req, st, env, g, now) ==
        Outcome(Reply(200, GatewayLogged(id, row)), Append(st, PaymentsSheet, row),
                [GatewayVerify(req.reference), SheetAppend(PaymentsSheet, row)])
  {
  }

  /** On every path the Orders sheet is untouched and no effect names it. */
  lemma NeverTouchesOrders(req: Request, st: Store, env: Env, g: GatewayReply, now: string)
    ensures var o := Handle(req, st, env, g, now);
      && o.store.Keys == st.Keys
      && (OrdersSheet in st ==> o.store[OrdersSheet] == st[OrdersSheet])
      && forall i :: 0 <= i < |o.effects| && o.effects[i].SheetAppend? ==> o.effects[i].sheet == PaymentsSheet
  {
  }

  lemma PreservesHistory(req: Request, st: Store, env: Env, g: GatewayReply, now: string)
    ensures Evolves(st, Handle(req, st, env, g, now).store)
  {
    var o := Handle(req, st, env, g, now);
    if o.reply.status == 200 {
      AppendEvolves(st, PaymentsSheet, o.reply.payload.row);
    } else {
      EvolvesRefl(st);
    }
  }
}

=== FILE: sheets.dfy ===
/** The spreadsheet as an abstract tabular store: a map from sheet name to its
    rows, each row a sequence of cells. Row 0 of a sheet is sheet row 1 in A1
    notation; a missing map entry is a sheet that does not exist. */
module Sheets {
  import opened Js

  type Row = seq<Value>
  type Store = map<string, seq<Row>>

  const OrdersSheet := "Orders"
  const PaymentsSheet := "Payments"
  const OrderLogsSheet := "Order logs"
  const InvoiceLogsSheet := "InvoiceLogs"

  /** Column A holds the record's id in every sheet the handlers read. */
  const KeyColumn: nat := 0
  /** Column E of an order row holds its status. */
  const StatusColumn: nat := 4

  function Key(row: Row): Value {
    At(row, KeyColumn)
  }

  /** `values.append` of one row: the row lands after the last one. */
  function Append(st: Store, sheet: string, row: Row): (st': Store)
    requires sheet in st
    ensures st'.Keys == st.Keys
    ensures |st'[sheet]| == |st[sheet]| + 1
    ensures st'[sheet][..|st[sheet]|] == st[sheet]
    ensures st'[sheet][|st[sheet]|] == row
    ensures forall s :: s in st && s != sheet ==> st'[s] == st[s]
  {
    st[sheet := st[sheet] + [row]]
  }

  /** A single-cell write into a row: a row shorter than the column is padded
      with empty cells first. */
  function SetAt(row: Row, c: nat, v: Value): (r: Row)
    ensures |r| == if c < |row| then |row| else c + 1
    ensures r[c] == v
    ensures forall j :: 0 <= j < |row| && j != c ==> r[j] == row[j]
    ensures forall j :: |row| <= j < |r| && j != c ==> r[j] == Str("")
  {
    if c < |row| then row[c := v] else row + seq(c - |row|, _ => Str("")) + [v]
  }

  /** `values.update` of the single cell at row index `r`, column `c`. */
  function UpdateCell(st: Store, sheet: string, r: nat, c: nat, v: Value): (st': Store)
    requires sheet in st && r < |st[sheet]|
    ensures st'.Keys == st.Keys
    ensures |st'[sheet]| == |st[sheet]|
    ensures st'[sheet][r] == SetAt(st[sheet][r], c, v)
    ensures forall j :: 0 <= j < |st[sheet]| && j != r ==> st'[sheet][j] == st[sheet][j]
    ensures forall s :: s in st && s != sheet ==> st'[s] == st[s]
  {
    st[sheet := st[sheet][r := SetAt(st[sheet][r], c, v)]]
  }

  /** `rows.findIndex(r => r[0] === key)`, with None for -1. */
  function FindIndex(rows: seq<Row>, key: Value): (k: Option<nat>)
    ensures k.Some? ==> k.value < |rows| && Key(rows[k.value]) == key
    ensures k.Some? ==> forall j :: 0 <= j < k.value ==> Key(rows[j]) != key
    ensures k.None? ==> forall j :: 0 <= j < |rows| ==> Key(rows[j]) != key
  {
    if |rows| == 0 then None
    else if Key(rows[0]) == key then Some(0)
    else
      match FindIndex(rows[1..], key)
      case None => None
      case Some(i) => Some(i + 1)
  }

  /** `rows.slice(1)`: every row after the header, each one index lower. */
  function DataRows(rows: seq<Row>): (r: seq<Row>)
    ensures |r| == if |rows| == 0 then 0 else |rows| - 1
    ensures forall j :: 0 <= j < |r| ==> r[j] == rows[j + 1]
  {
    if |rows| == 0 then [] else rows[1..]
  }

  /** The first-match contract pins the result down: any index that is a
      match with no match before it is the one FindIndex returns. */
  lemma FindIndexUnique(rows: seq<Row>, key: Value, i: nat)
    requires i < |rows| && Key(rows[i]) == key
    requires forall j :: 0 <= j < i ==> Key(rows[j]) != key
    ensures FindIndex(rows, key) == Some(i)
  {
  }

  /** Appending a row never moves an earlier match; it is found itself only
      when nothing before it matches. */
  lemma FindIndexAppend(rows: seq<Row>, row: Row, key: Value)
    ensures FindIndex(rows, key).Some? ==> FindIndex(rows + [row], key) == FindIndex(rows, key)
    ensures FindIndex(rows, key).None? && Key(row) == key ==> FindIndex(rows + [row], key) == Some(|rows|)
    ensures FindIndex(rows, key).None? && Key(row) != key ==> FindIndex(rows + [row], key).None?
  {
    var all := rows + [row];
    match FindIndex(rows, key)
    case Some(i) =>
      assert all[i] == rows[i];
      assert forall j :: 0 <= j < i ==> all[j] == rows[j];
      FindIndexUnique(all, key, i);
    case None =>
      assert forall j :: 0 <= j < |rows| ==> all[j] == rows[j];
      if Key(row) == key {
        FindIndexUnique(all, key, |rows|);
      }
  }

  // ---------------------------------------------------------------------
  // How the store may change across requests: every sheet only grows at its
  // end, except that an existing order row may have its status cell set to
  // "Paid".

  predicate Extends(a: seq<Row>, b: seq<Row>) {
    |a| <= |b| && b[..|a|] == a
  }

  predicate PaidOrSame(a: Row, b: Row) {
    b == a || b == SetAt(a, StatusColumn, Str("Paid"))
  }

  predicate OrdersEvolve(a: seq<Row>, b: seq<Row>) {
    |a| <= |b| && forall i :: 0 <= i < |a| ==> PaidOrSame(a[i], b[i])
  }

  predicate Evolves(st: Store, st': Store) {
    && st.Keys == st'.Keys
    && (forall s :: s in st && s != OrdersSheet ==> Extends(st[s], st'[s]))
    && (OrdersSheet in st ==> OrdersEvolve(st[OrdersSheet], st'[OrdersSheet]))
  }

  /** Writing the same column twice keeps only the second write. */
  lemma SetAtTwice(row: Row, c: nat, v: Value, w: Value)
    ensures SetAt(SetAt(row, c, v), c, w) == SetAt(row, c, w)
  {
    var a := SetAt(SetAt(row, c, v), c, w);
    var b := SetAt(row, c, w);
    assert |a| == |b|;
    forall j | 0 <= j < |a|
      ensures a[j] == b[j]
    {
    }
  }

  lemma EvolvesRefl(st: Store)
    ensures Evolves(st, st)
  {
    forall s | s in st && s != OrdersSheet
      ensures Extends(st[s], st[s])
    {
      assert st[s][..|st[s]|] == st[s];
    }
  }

  lemma EvolvesTrans(st1: Store, st2: Store, st3: Store)
    requires Evolves(st1, st2) && Evolves(st2, st3)
    ensures Evolves(st1, st3)
  {
    forall s | s in st1 && s != OrdersSheet
      ensures Extends(st1[s], st3[s])
    {
      assert st3[s][..|st2[s]|][..|st1[s]|] == st3[s][..|st1[s]|];
    }
    if OrdersSheet in st1 {
      var a, b, c := st1[OrdersSheet], st2[OrdersSheet], st3[OrdersSheet];
      forall i | 0 <= i < |a|
        ensures PaidOrSame(a[i], c[i])
      {
        assert PaidOrSame(a[i], b[i]) && PaidOrSame(b[i], c[i]);
        if b[i] != a[i] && c[i] != b[i] {
          SetAtTwice(a[i], StatusColumn, Str("Paid"), Str("Paid"));
        }
      }
    }
  }

  lemma AppendEvolves(st: Store, sheet: string, row: Row)
    requires sheet in st
    ensures Evolves(st, Append(st, sheet, row))
  {
    var st' := Append(st, sheet, row);
    forall s | s in st && s != OrdersSheet
      ensures Extends(st[s], st'[s])
    {
      assert st[s][..|st[s]|] == st[s];
    }
    if OrdersSheet in st {
      var a, b := st[OrdersSheet], st'[OrdersSheet];
      assert forall i :: 0 <= i < |a| ==> b[i] == b[..|a|][i];
    }
  }

  lemma MarkPaidEvolves(st: Store, r: nat)
    requires OrdersSheet in st && r < |st[OrdersSheet]|
    ensures Evolves(st, UpdateCell(st, OrdersSheet, r, StatusColumn, Str("Paid")))
  {
    var st' := UpdateCell(st, OrdersSheet, r, StatusColumn, Str("Paid"));
    forall s | s in st && s != OrdersSheet
      ensures Extends(st[s], st'[s])
    {
      assert st[s][..|st[s]|] == st[s];
    }
  }

  /** Once an order row's status reads "Paid" it keeps reading "Paid". */
  lemma PaidIsSticky(st: Store, st': Store, i: nat)
    requires Evolves(st, st')
    requires OrdersSheet in st && i < |st[OrdersSheet]|
    requires At(st[OrdersSheet][i], StatusColumn) == Str("Paid")
    ensures At(st'[OrdersSheet][i], StatusColumn) == Str("Paid")
  {
    var a := st[OrdersSheet][i];
    assert PaidOrSame(a, st'[OrdersSheet][i]);
  }

  /** A truthy key found below the header of the Orders sheet stays found at
      the same data-row index: rows are never removed or reordered, and the
      status write never touches column A of a row that has one. */
  lemma LookupStable(st: Store, st': Store, key: Value, i: nat)
    requires Evolves(st, st') && OrdersSheet in st
    requires Truthy(key)
    requires FindIndex(DataRows(st[OrdersSheet]), key) == Some(i)
    ensures FindIndex(DataRows(st'[OrdersSheet]), key) == Some(i)
  {
    var a, b := st[OrdersSheet], st'[OrdersSheet];
    var da, db := DataRows(a), DataRows(b);
    forall j | 0 <= j < |a|
      ensures Key(b[j]) == Key(a[j]) || (!Truthy(Key(a[j])) && !Truthy(Key(b[j])))
    {
      assert PaidOrSame(a[j], b[j]);
    }
    assert Key(db[i]) == key by {
      assert da[i] == a[i + 1] && db[i] == b[i + 1];
    }
    forall j | 0 <= j < i
      ensures Key(db[j]) != key
    {
      assert da[j] == a[j + 1] && db[j] == b[j + 1];
    }
    FindIndexUnique(db, key, i);
  }
}

=== FILE: workflow.dfy ===
/** The four handlers share nothing but the store. This module runs them in
    sequence and states what holds across requests: history is only ever
    extended, a paid order stays paid, add-order and add-payments agree on
    where the status lives, and the two order lookups differ exactly in the
    header row and in the sheet they read. */
module Workflow {
  import opened Js
  import opened Sheets
  import opened Http
  import AddOrder
  import AddPayments
  import PaystackVerify
  import Invoice

  /** One request to one of the handlers, with the outside world it meets. */
  datatype Call =
    | PlaceOrder(order: AddOrder.Request, env: Env, now: string)
    | RecordPayment(payment: AddPayments.Request, env: Env, uuid: string, now: string)
    | ConfirmGateway(confirm: PaystackVerify.Request, env: Env, gateway: PaystackVerify.GatewayReply, now: string)
    | IssueInvoice(invoice: Invoice.Request, env: Env, uuid: string, now: string)

  function Serve(st: Store, c: Call): Outcome {
    match c
    case PlaceOrder(r, env, now) => AddOrder.Handle(r, st, env, now)
    case RecordPayment(r, env, uuid, now) => AddPayments.Handle(r, st, env, uuid, now)
    case ConfirmGateway(r, env, g, now) => PaystackVerify.Handle(r, st, env, g, now)
    case IssueInvoice(r, env, uuid, now) => Invoice.Handle(r, st, env, uuid, now)
  }

  /** The store after serving the calls one after another. */
  function Run(st: Store, calls: seq<Call>): Store
    decreases |calls|
  {
    if |calls| == 0 then st else Run(Serve(st, calls[0]).store, calls[1..])
  }

  lemma ServeEvolves(st: Store, c: Call)
    ensures Evolves(st, Serve(st, c).store)
  {
    match c
    case PlaceOrder(r, env, now) => AddOrder.PreservesHistory(r, st, env, now);
    case RecordPayment(r, env, uuid, now) => AddPayments.PreservesHistory(r, st, env, uuid, now);
    case ConfirmGateway(r, env, g, now) => PaystackVerify.PreservesHistory(r, st, env, g, now);
    case IssueInvoice(r, env, uuid, now) => Invoice.PreservesHistory(r, st, env, uuid, now);
  }

  /** Over any sequence of requests no sheet loses or reorders a row, no
      payment or invoice log row ever changes, and an order row changes at
      most by its status cell becoming "Paid". */
  lemma {:induction false} RunEvolves(st: Store, calls: seq<Call>)
    ensures Evolves(st, Run(st, calls))
    decreases |calls|
  {
    if |calls| == 0 {
      EvolvesRefl(st);
    } else {
      var st1 := Serve(st, calls[0]).store;
      ServeEvolves(st, calls[0]);
      RunEvolves(st1, calls[1..]);
      EvolvesTrans(st, st1, Run(st1, calls[1..]));
    }
  }

  /** Once an order's status reads "Paid", no sequence of requests turns it
      back: the only status write there is writes "Paid". */
  lemma PaidStaysPaid(st: Store, calls: seq<Call>, i: nat)
    requires OrdersSheet in st && i < |st[OrdersSheet]|
    requires At(st[OrdersSheet][i], StatusColumn) == Str("Paid")
    ensures var st' := Run(st, calls);
      && OrdersSheet in st' && i < |st'[OrdersSheet]|
      && At(st'[OrdersSheet][i], StatusColumn) == Str("Paid")
  {
    RunEvolves(st, calls);
    PaidIsSticky(st, Run(st, calls), i);
  }

  /** A row in any sheet other than Orders (a payment, an invoice log entry,
      an "Order logs" row) is never altered or dropped by later requests. */
  lemma LoggedRowsKept(st: Store, calls: seq<Call>, sheet: string, j: nat)
    requires sheet in st && sheet != OrdersSheet && j < |st[sheet]|
    ensures var st' := Run(st, calls);
      && sheet in st' && j < |st'[sheet]|
      && st'[sheet][j] == st[sheet][j]
  {
    var st' := Run(st, calls);
    RunEvolves(st, calls);
    assert Extends(st[sheet], st'[sheet]);
    assert st'[sheet][j] == st'[sheet][..|st[sheet]|][j];
  }

  /** An order placed under a fresh id into a sheet that has its header row,
      then paid in full against its unit price, ends with "Paid" in the very
      status cell add-order filled: column E of the new row, sheet row n + 1.
      Every other cell of the order and every earlier row is as before. */
  lemma OrderThenPayment(
    st: Store, order: AddOrder.Request, orderEnv: Env, orderedAt: string,
    payment: AddPayments.Request, payEnv: Env, uuid: string, paidAt: string)
    requires order.verb == "POST" && AddOrder.HasRequired(order)
    requires Reaches(st, orderEnv, SheetsAppend, OrdersSheet) && |st[OrdersSheet]| >= 1
    requires forall j :: 1 <= j < |st[OrdersSheet]| ==> Key(st[OrdersSheet][j]) != order.orderId
    requires payment.verb == "POST" && AddPayments.HasRequired(payment) && payment.orderId == order.orderId
    requires payEnv.down == {} && PaymentsSheet in st
    requires AtLeast(ParseFloat(payment.amountPaid), ParseFloat(order.price))
    ensures var st1 := AddOrder.Handle(order, st, orderEnv, orderedAt).store;
      var out := AddPayments.Handle(payment, st1, payEnv, uuid, paidAt);
      var n := |st[OrdersSheet]|;
      && out.reply == Reply(200, PaymentLogged(AddPayments.PaymentId(uuid), "TRUE"))
      && out.effects[2] == SheetUpdate(OrdersSheet, n + 1, StatusColumn, Str("Paid"))
      && |out.store[OrdersSheet]| == n + 1
      && out.store[OrdersSheet][..n] == st[OrdersSheet]
      && out.store[OrdersSheet][n] == AddOrder.OrderRow(order, orderedAt)[StatusColumn := Str("Paid")]
  {
    var n := |st[OrdersSheet]|;
    var placed := AddOrder.OrderRow(order, orderedAt);
    var st1 := AddOrder.Handle(order, st, orderEnv, orderedAt).store;
    assert st1[OrdersSheet] == st[OrdersSheet] + [placed];
    assert AddPayments.FirstDataMatch(st1[OrdersSheet], payment.orderId, n);
    assert AddPayments.Verified(payment.amountPaid, st1[OrdersSheet][n]) == "TRUE";
    AddPayments.StatusUpdate(payment, st1, payEnv, uuid, paidAt, n);
    AddPayments.VerifiedIff(payment, st1, payEnv, uuid, paidAt, n);
    var out := AddPayments.Handle(payment, st1, payEnv, uuid, paidAt);
    assert out.store[OrdersSheet][..n] == st[OrdersSheet] by {
      forall j | 0 <= j < n
        ensures out.store[OrdersSheet][j] == st[OrdersSheet][j]
      {
        assert st1[OrdersSheet][j] == st[OrdersSheet][j];
      }
    }
  }

  /** Into a sheet with no rows at all, the first order lands where the
      header belongs, and add-payments, which skips that row, never finds it. */
  lemma FirstOrderTakesHeaderRow(
    st: Store, order: AddOrder.Request, orderEnv: Env, orderedAt: string,
    payment: AddPayments.Request, payEnv: Env, uuid: string, paidAt: string)
    requires order.verb == "POST" && AddOrder.HasRequired(order)
    requires Reaches(st, orderEnv, SheetsAppend, OrdersSheet) && st[OrdersSheet] == []
    requires payment.verb == "POST" && AddPayments.HasRequired(payment) && payment.orderId == order.orderId
    requires SheetsGet !in payEnv.down
    ensures var st1 := AddOrder.Handle(order, st, orderEnv, orderedAt).store;
      && st1[OrdersSheet] == [AddOrder.OrderRow(order, orderedAt)]
      && AddPayments.Handle(payment, st1, payEnv, uuid, paidAt).reply.status == 404
  {
    var st1 := AddOrder.Handle(order, st, orderEnv, orderedAt).store;
    assert st1[OrdersSheet] == [AddOrder.OrderRow(order, orderedAt)];
    AddPayments.LookupSkipsHeader(payment, st1, payEnv, uuid, paidAt);
  }

  /** Below the header the two lookups agree: the invoice lookup's index is
      one more than add-payments' data-row index. They part only when the
      header's column A itself equals the id, which only the invoice lookup
      matches. */
  lemma LookupsAgreeBelowHeader(rows: seq<Row>, key: Value)
    requires |rows| > 0
    ensures Key(rows[0]) == key ==> FindIndex(rows, key) == Some(0)
    ensures Key(rows[0]) != key ==>
      (FindIndex(rows, key).Some? <==> FindIndex(DataRows(rows), key).Some?)
    ensures Key(rows[0]) != key && FindIndex(rows, key).Some? ==>
      FindIndex(rows, key).value == FindIndex(DataRows(rows), key).value + 1
  {
    var data := DataRows(rows);
    assert forall j :: 0 <= j < |data| ==> data[j] == rows[j + 1];
    if Key(rows[0]) != key {
      match FindIndex(data, key)
      case Some(i) =>
        FindIndexUnique(rows, key, i + 1);
      case None =>
        assert forall j :: 0 <= j < |rows| ==> Key(rows[j]) != key by {
          forall j | 0 <= j < |rows|
            ensures Key(rows[j]) != key
          {
            if j > 0 {
              assert rows[j] == data[j - 1];
            }
          }
        }
    }
  }

  /** Placing an order does not change what invoice generation sees: it
      reads "Order logs", while add-order writes "Orders". */
  lemma InvoiceIgnoresPlacedOrders(
    st: Store, order: AddOrder.Request, orderEnv: Env, orderedAt: string,
    req: Invoice.Request, env: Env, uuid: string, now: string)
    ensures var st1 := AddOrder.Handle(order, st, orderEnv, orderedAt).store;
      && Invoice.Handle(req, st1, env, uuid, now).reply == Invoice.Handle(req, st, env, uuid, now).reply
      && Invoice.Handle(req, st1, env, uuid, now).effects == Invoice.Handle(req, st, env, uuid, now).effects
  {
    var st1 := AddOrder.Handle(order, st, orderEnv, orderedAt).store;
    if order.verb == "POST" && AddOrder.HasRequired(order) {
      AddOrder.AppendsOnce(order, st, orderEnv, orderedAt);
    }
    Invoice.ReadsOnlyOrderLogs(req, st, st1, env, uuid, now);
  }

  /** The Widget order: three units at 1000 each. A payment of 1000, a third
      of what is owed, is already marked "TRUE" and sets the order "Paid",
      because the comparison is against the unit price. */
  lemma WidgetScenario(header: Row, uuid: string, orderedAt: string, paidAt: string)
    requires Key(header) != Str("ORD-1")
    ensures
      var st := map[OrdersSheet := [header], PaymentsSheet := []];
      var up := Env({}, Undefined);
      var order := AddOrder.Request("POST", Str("ORD-1"), Str("Widget"), Num(3.0), Num(1000.0), Undefined,
                                    Str("Ada"), Str("a@x.com"), Str("123"), Str("Lagos"));
      var payment := AddPayments.Request("POST", Str("ORD-1"), Num(1000.0), Str("card"), Undefined, Str("Ada"), Undefined);
      var st1 := AddOrder.Handle(order, st, up, orderedAt).store;
      var out := AddPayments.Handle(payment, st1, up, uuid, paidAt);
      && st1[OrdersSheet][1][StatusColumn] == Str("Pending")
      && out.reply.payload.verified == "TRUE"
      && out.store[OrdersSheet][1][StatusColumn] == Str("Paid")
  {
    var st := map[OrdersSheet := [header], PaymentsSheet := []];
    var up := Env({}, Undefined);
    var order := AddOrder.Request("POST", Str("ORD-1"), Str("Widget"), Num(3.0), Num(1000.0), Undefined,
                                  Str("Ada"), Str("a@x.com"), Str("123"), Str("Lagos"));
    var payment := AddPayments.Request("POST", Str("ORD-1"), Num(1000.0), Str("card"), Undefined, Str("Ada"), Undefined);
    assert AddOrder.HasRequired(order) && AddPayments.HasRequired(payment);
    assert AtLeast(ParseFloat(payment.amountPaid), ParseFloat(order.price));
    AddOrder.AppendsOnce(order, st, up, orderedAt);
    var st1 := AddOrder.Handle(order, st, up, orderedAt).store;
    assert st1[OrdersSheet] == [header, AddOrder.OrderRow(order, orderedAt)];
    OrderThenPayment(st, order, up, orderedAt, payment, up, uuid, paidAt);
  }
}
